=== FILE: README.md ===
# Texture shim model (gl4es `src/gl/texture.c`)

A Dafny model of the texture layer of gl4es, a shim that maps desktop GL
texture calls onto OpenGL ES. The model covers its sequential bookkeeping
and decision logic:

- the power-of-two sizer `npot` (module `Npot`);
- `swizzle_texture`, the format/type acceptance table with its conversion
  fallback (module `FormatNormalizer`);
- the emulation of `GL_UNPACK_ROW_LENGTH` / `SKIP_PIXELS` / `SKIP_ROWS`
  (module `RowUnpacker`). It holds the sub-image copy `Unpack`, which the
  model uses for both upload paths, and the base-level copy exactly as written;
- the texture store and unit state: `glBindTexture`, `glDeleteTextures`,
  `glActiveTexture`, `glClientActiveTexture`, `glPixelStorei` (module
  `TexState`);
- `glTexImage2D` with its NPOT upload decision, and `glTexSubImage2D`
  (module `TexUpload`);
- `glGetTexLevelParameteriv` and the guards and binding restore of
  `glGetTexImage` (module `TexQuery`).

The shim's global `state.texture` is an immutable `TexState.State`. It holds:

- a store `map<nat, TexRecord>`;
- one bound slot and one rectangle flag per unit;
- separate server and client active indices;
- the unpack configuration;
- the two list-recorder flags.

Every entry point that changes state or issues calls is a function from a
`State` to a `Step`: the new state plus the ordered log of OpenGL ES calls
it issues (`Gles.Call`). The two read-side entry points differ:
`TexQuery.LevelParameter` returns the integer written to `*params`, and
`TexQuery.GetTexImage` returns a `ReadStep`, which adds the readback
outcome to the state and the calls. The
invariant `TexState.Valid` holds in every reachable state. It says that no
unit slot names a texture missing from the store, that every record sits
under its own nonzero name, and that its tracked storage size is the
power-of-two cover of its tracked size.

External functions are parameters:

- `pixel_convert` is a function-typed `Converter` that may fail (`None`);
- `pixel_sizeof(format, type)` is the byte count `ps`;
- `map_tex_target` is uninterpreted. A call that goes through it records its
  argument as `Gles.Mapped(target)`.

A NULL pointer is `None`.

Three behaviours of the code to note:

- For `GL_PROXY_TEXTURE_2D`, `glTexImage2D` issues no call at all
  (texture.c:162-164). It does not issue a single direct allocation.
- Deletion clears only the server-side bound slots. The client axis has no
  bindings in this file.
- The base-level unpack path is not made byte-compatible. It is modelled as
  written, and the rest of the model uses the sub-image copy (see Findings).

## Model

| member | source | states |
|---|---|---|
| `Npot.NPot` | src/gl/texture.c:7-13 | 0 for 0; for n > 0 a power of two at least n whose half is below n; 1 for negative n |
| `Npot.Grow` | src/gl/texture.c:10-11 | doubling from a power of two that has not overshot n yields a power of two covering n whose half does not |
| `Npot.NPotLoop` | src/gl/texture.c:7-13 | the C doubling loop computes `NPot` |
| `Npot.NPotIsLeast` | src/gl/texture.c:7-13 | no power of two at least n is smaller than npot(n) |
| `Npot.NPotCharacterization` | src/gl/texture.c:7-13 | for n > 0, p == npot(n) if and only if p is a power of two, p >= n and p/2 < n |
| `Npot.NPotFixesPow2` | src/gl/texture.c:7-13 | a power of two is its own npot, so an already-POT size takes the single-call path |
| `Npot.NPotIdempotent` | src/gl/texture.c:7-13 | npot(npot(n)) == npot(n) |
| `FormatNormalizer.Dealias` | src/gl/texture.c:65-67 | 8_8_8_8_REV becomes UNSIGNED_BYTE, every other type is kept |
| `FormatNormalizer.Swizzle` | src/gl/texture.c:43-92 | native pair: format and data kept, alias renamed; conversion with NULL data: canonical pair, no data; conversion with data: canonical pair and converted buffer, or NULL with the alias-renamed pair when conversion fails |
| `FormatNormalizer.SwizzleYieldsNativePair` | src/gl/texture.c:46-91 | whenever pixels come out, or none went in, the resulting pair is on both allow-lists; a NULL result for real data means conversion was needed |
| `FormatNormalizer.SwizzleIdempotent` | src/gl/texture.c:43-92 | normalising a successful result again changes nothing |
| `FormatNormalizer.CanonicalPassesThrough` | src/gl/texture.c:43-92 | (RGBA, UNSIGNED_BYTE) passes through with the same data, with or without data |
| `FormatNormalizer.AliasIsNotConverted` | src/gl/texture.c:58-71 | with a native format, 8_8_8_8_REV is renamed and the data is not converted |
| `RowUnpacker.Unpack` | src/gl/texture.c:197-210 | the packed copy has exactly width*height*ps bytes |
| `RowUnpacker.UnpackRow` | src/gl/texture.c:200-209 | packed row y is the source bytes from skipPixels*ps + (skipRows+y)*stride, width*ps long |
| `RowUnpacker.UnpackByte` | src/gl/texture.c:204-209 | packed byte x of row y is source byte skipPixels*ps + (skipRows+y)*stride + x |
| `RowUnpacker.ApplyUnpack` | src/gl/texture.c:197 | the client buffer passes through unchanged unless the row length differs from the width or a skip is nonzero; otherwise the packed copy is used |
| `RowUnpacker.PackedIsUnpacked` | src/gl/texture.c:197-210 | when no unpacking is needed, the buffer already is the packed image |
| `RowUnpacker.UnpackDecisionIsSound` | src/gl/texture.c:197-210 | with or without the copy, the first width*height*ps bytes handed on are the requested sub-rectangle |
| `RowUnpacker.UnpackCopy` | src/gl/texture.c:198-209 | the memcpy loop produces exactly `Unpack` |
| `RowUnpacker.UnpackBaseAsWritten` | src/gl/texture.c:104-117 | the base-level copy as written: skip-pixels added as bytes, destination advanced by width bytes, with unwritten bytes marked |
| `RowUnpacker.BaseSkipPixelsOffsetDiffers` | src/gl/texture.c:111 | with a skip of one 2-byte pixel, the base path starts one byte in, where `Unpack` starts one pixel in |
| `RowUnpacker.BaseRowAdvanceDiffers` | src/gl/texture.c:115 | with two rows of 2-byte pixels, the base path overlaps its rows and leaves the last byte unwritten |
| `RowUnpacker.BaseAgreesForBytePixels` | src/gl/texture.c:104-117 | with one-byte pixels, the base path as written produces exactly `Unpack` |
| `TexState.BindTexture` | src/gl/texture.c:279-321 | while a list is active, nothing changes; otherwise only the active slot changes, to the name or to none for 0; the rectangle flag records `target == RECTANGLE_ARB`; an unseen name gets one empty record with the given target; existing records are kept as they are |
| `TexState.RebindKeepsRecord` | src/gl/texture.c:297-310 | binding a name again with any target finds the same record, and its creation target persists |
| `TexState.DeleteAll` | src/gl/texture.c:338-356 | exactly the listed names that were stored are removed, and exactly the slots that held them are cleared; everything else is unchanged |
| `TexState.DeleteAllLoop` | src/gl/texture.c:342-355 | the nested C loops compute `DeleteAll` |
| `TexState.DeleteTextures` | src/gl/texture.c:336-359 | unless a list is active and compiling, exactly the named records are removed and exactly the slots that held them are cleared (`DeleteAll`), everything else is unchanged, and the names are passed on to OpenGL ES; while a list is active and compiling, nothing changes |
| `TexState.RebindAfterDeleteIsFresh` | src/gl/texture.c:297-353 | after a delete, binding the same name again creates a fresh record with zero geometry |
| `TexState.ActiveTexture` | src/gl/texture.c:489-499 | only the server index can change; an in-range unit selects unit - TEXTURE0; an out-of-range unit, or a call while a list is active and compiling, changes nothing and issues no call |
| `TexState.ClientActiveTexture` | src/gl/texture.c:501-511 | only the client index can change, with the same range rule |
| `TexState.UnitAxesIndependent` | src/gl/texture.c:494-508 | selecting a client unit leaves the server binding alone, and selecting a server unit leaves the client index and all bindings alone |
| `TexState.SelectThenBind` | src/gl/texture.c:310-496 | selecting unit k and then binding writes slot k and no other |
| `TexState.PixelStorei` | src/gl/texture.c:257-277 | ROW_LENGTH, SKIP_PIXELS, SKIP_ROWS and LSB_FIRST each set their own field and issue no call; any other parameter is passed through and leaves the state unchanged |
| `TexState.LastStoreWins` | src/gl/texture.c:260-272 | storing the same parameter twice keeps the second value |
| `TexState.ResetDisablesUnpack` | src/gl/texture.c:260-269 | zeroing the row length and both skips turns row unpacking off for every width |
| `TexUpload.Prepare` | src/gl/texture.c:100-147 | without data there are no pixels; a native pair keeps its format and carries the buffer unpacked by the sub-image copy (weaker for the base level, see Left out); a pair that needs conversion goes on as (RGBA, UNSIGNED_BYTE) with no data when none was given, with the converter's output on the unpacked buffer when it succeeds, and as (format, alias-renamed type) with no pixels when it fails |
| `TexUpload.NpotCalls` | src/gl/texture.c:162-183 | proxy: no call; a non-POT size: an empty allocation at the npot size, then a sub-upload of the true size at (0,0); a POT size: one allocation with the data |
| `TexUpload.NpotCallsArePow2AndComplete` | src/gl/texture.c:166-181 | every allocation is zero or a power of two in size and covers the image; the pixels arrive exactly once, in the last call, at the origin with the true size |
| `TexUpload.TrackGeometry` | src/gl/texture.c:166-172 | the tracked invariant, including that the storage size is the npot of the size, is preserved |
| `TexUpload.TexImage2D` | src/gl/texture.c:94-187 | the calls are `NpotCalls` of the prepared image (unpacked by the corrected copy, see Left out); only a level-0, non-proxy upload to a bound texture changes state, and it records width, height, npot(width) and npot(height) on that record alone |
| `TexUpload.TexImage2DIgnoresInternalFormatAndBorder` | src/gl/texture.c:94-101 | internalFormat and border have no effect |
| `TexUpload.TexImage2DUploadsRequestedRectangle` | src/gl/texture.c:102-123 | for a native pair, the uploaded pixels are the requested sub-rectangle, packed (by the corrected copy, see Left out) |
| `TexUpload.Upload100x70` | src/gl/texture.c:162-181 | a 100x70 level-0 image is tracked as 100x70 in 128x128 storage, and goes up as an empty 128x128 allocation plus a 100x70 sub-upload |
| `TexUpload.Upload128x128` | src/gl/texture.c:178-181 | a 128x128 image goes up in one allocate-with-data call |
| `TexUpload.TexSubImage2D` | src/gl/texture.c:189-221 | the state never changes; exactly one sub-upload is issued, with the mapped target and the given level, offset and size; a native pair goes out as (format, alias-renamed type); a pair that needs conversion goes out as (RGBA, UNSIGNED_BYTE) with the converter's output on the unpacked buffer, or with no data when none was given, and as (format, alias-renamed type) with no pixels when conversion fails |
| `TexUpload.TexSubImage2DUploadsRequestedRectangle` | src/gl/texture.c:197-218 | for a native pair, the sub-upload carries the requested sub-rectangle, packed |
| `TexQuery.LevelParameter` | src/gl/texture.c:365-413 | width and height are the bound size shifted right by level (2048 for the proxy or when nothing is bound); the compressed size is w*h*4, or 0 when nothing is bound; the fixed RGBA8 answers; 0 for unknown names |
| `TexQuery.LevelHalvesSize` | src/gl/texture.c:370-381 | each level reports half the size of the level above, rounded down |
| `TexQuery.QueryAfterUpload` | src/gl/texture.c:365-413 | after a level-0 upload, the queries report the uploaded width, height and w*h*4 |
| `TexQuery.QueryAfterDelete` | src/gl/texture.c:368-408 | after the bound texture is deleted, the queries report the defaults |
| `TexQuery.GetTexImage` | src/gl/texture.c:415-487 | with nothing bound, a non-zero level, or a request other than (RGBA, UNSIGNED_BYTE), nothing happens; otherwise the bound texture's size is read back; when no list is active, nothing else changes except that the unit's rectangle flag is cleared, and the one call issued is the restore bind under `GL_TEXTURE_2D`; while a list is active, the restore bind goes to the recorder, so the state is unchanged and no call is issued |
| `TexQuery.GetTexImageClearsRectangleFlag` | src/gl/texture.c:484 | reading back a rectangle texture clears its unit's rectangle flag |
| `TexQuery.GetTexImageRestoring` | src/gl/texture.c:458-484 | with the restore bind using the unit's own target, a readback leaves the tracked state exactly as it was |

## Left out

- `tex_coord_rect_arb` and `tex_coord_npot`: they are floating-point coordinate rescaling.
- The off-screen body of `glGetTexImage` is left out. It covers extension entry points resolved at run time, the draw, and `glReadPixels`. Only the guards, the reported size and the restore bind are modelled. The restore bind is the only call logged.
- The `LIBGL_SHRINK` and `LIBGL_TEXDUMP` paths are left out. They are environment-controlled debug features, and they call the external `pixel_scale` and `pixel_to_ppm`.
- `pixel_convert`, `pixel_sizeof`, `map_tex_target` and the OpenGL ES entry points are external. They appear as parameters or as the call log.
- The command-list recorder is external. Only its two flags are kept. `glBindTexture` defers to it when a list is active. `glDeleteTextures` (texture.c:337), `glActiveTexture` (texture.c:492) and `glClientActiveTexture` (texture.c:504) defer when a list is both active and compiling, which is the condition of the `PUSH_IF_COMPILING` macro. That macro is defined outside this file. Of the modelled entry points, `glPixelStorei`, `glTexImage2D`, `glTexSubImage2D` and `glGetTexLevelParameteriv` never defer. The restore bind of `glGetTexImage` goes through the shim's own `glBindTexture`, so it goes to the recorder when a list is active. `glTexParameteri`, which is left out, also uses `PUSH_IF_COMPILING`.
- The hash-table internals, including the dummy put/delete on first use, are replaced by a `map`. An absent table behaves like an empty map.
- `malloc` and `free` are not modelled. Buffers are values, so pointer identity and ownership are not.
- `glTexParameteri` is a one-line passthrough. `glAreTexturesResident` is a stub.
- The 1D and 3D entry points are left out. Each is a single call forwarding to the 2D path.
- `MAX_TEX` is defined in a header that is not part of this model. The value 8 is assumed. No proof depends on it.
- `TexState.BindTexture`: a new record's `nwidth` and `nheight` are uninitialised in C. The model sets them to 0, which is npot(0).
- `uploaded` is never set to true anywhere in this file, so the model never sets it either.
- `Npot.NPot`: does not model 32-bit overflow. The C loop's shift overflows for n > 2^30, and the model computes over unbounded integers.
- `TexQuery.LevelParameter`: does not model a shift by a negative level or by 32 or more, which is undefined in C, because the level is a `nat`. It also does not model 32-bit overflow of w*h*4.
- `RowUnpacker.Unpack`: requires non-negative unpack parameters and a client buffer that holds every byte read. Negative values are not modelled: desktop GL rejects them and the shim does not check them; for most of them the C reads outside the buffer.
- `TexUpload.Prepare`: unpacks with the sub-image copy `RowUnpacker.Unpack`. The base-level path of `glTexImage2D` (texture.c:104-117) uses its own copy instead, which differs for pixels of two bytes or more (see Findings). That copy as written is `RowUnpacker.UnpackBaseAsWritten`.
- `TexUpload.TexImage2D`: its calls carry the pixels of `TexUpload.Prepare`, so they come from the corrected copy and not from texture.c:111 and :115 as written. `RowUnpacker.BaseAgreesForBytePixels` shows that the two agree for one-byte pixels.
- `TexUpload.TexImage2DUploadsRequestedRectangle`: holds of the corrected copy. With unpacking on and pixels of two bytes or more, the base-level code as written uploads different bytes (`RowUnpacker.BaseRowAdvanceDiffers`).
- `TexUpload.TexSubImage2D`: requires a buffer whenever unpacking is on. The sub-image path copies from the pointer without checking for NULL.
- Widths and heights are `nat`. Negative sizes are not modelled.

## Findings

| source | as written | input that shows it | evidently intended | confidence | as-written member | corrected member |
|---|---|---|---|---|---|---|
| src/gl/texture.c:111 | the base-level source offset adds `unpack_skip_pixels` as a byte count | skipPixels = 1, 1x1 image, 2-byte pixels, buffer [10,11,12,13]: the copy is [11,12] instead of [12,13] | `skip_pixels * pixelSize`, as the sub-image path has at line 204 | high (not executed) | `RowUnpacker.BaseSkipPixelsOffsetDiffers` | `RowUnpacker.UnpackRow` |
| src/gl/texture.c:115 | the base-level destination advances by `width` bytes per row | skipRows = 1, 1x2 image, 2-byte pixels, buffer [0..5]: the copy is [2,4,5,unwritten] instead of [2,3,4,5] | advance by `width * pixelSize`, as the sub-image path has at line 208 | high (not executed) | `RowUnpacker.BaseRowAdvanceDiffers` | `RowUnpacker.Unpack` |
| src/gl/texture.c:484 | the readback restores the binding with `glBindTexture(GL_TEXTURE_2D, old)` | bind texture 5 as `TEXTURE_RECTANGLE_ARB` on unit 0, then read it back: unit 0 is no longer flagged as a rectangle unit | rebind under the unit's own target, leaving the state as found | medium (not executed) | `TexQuery.GetTexImageClearsRectangleFlag` | `TexQuery.GetTexImageRestoring` |

Both base-level rows come from `RowUnpacker.UnpackBaseAsWritten`. By
`RowUnpacker.BaseAgreesForBytePixels`, the two defects only show for pixels
of two bytes or more. `TexUpload.TexImage2D` uses the corrected copy,
`RowUnpacker.Unpack`.

=== FILE: format_normalizer.dfy ===
/** `swizzle_texture` (src/gl/texture.c:43-92): decides whether a
    (format, type) pair is one the embedded API takes as is, and otherwise
    converts the pixels to the canonical (RGBA, UNSIGNED_BYTE) encoding
    through the external `pixel_convert`. */
module FormatNormalizer {
  import opened GL

  /** The external `pixel_convert(src, &dst, width, height, format, type,
      RGBA, UNSIGNED_BYTE)`: `None` when it reports failure, otherwise the
      converted buffer. Left uninterpreted. */
  type Converter = (Pixels, nat, nat, GLenum, GLenum) -> Option<Pixels>

  /** The formats the embedded API takes without conversion. */
  predicate NativeFormat(format: GLenum)
  {
    format in {ALPHA, RGB, RGBA, LUMINANCE, LUMINANCE_ALPHA}
  }

  /** The types the embedded API takes without conversion. */
  predicate NativeType(pixelType: GLenum)
  {
    pixelType in {UNSIGNED_BYTE, UNSIGNED_SHORT_5_6_5, UNSIGNED_SHORT_4_4_4_4, UNSIGNED_SHORT_5_5_5_1}
  }

  /** 8_8_8_8_REV is accepted as an alias of UNSIGNED_BYTE (same byte order
      on the little-endian targets the shim runs on) and renamed, never
      converted. */
  function Dealias(pixelType: GLenum): (t: GLenum)
    ensures pixelType == UNSIGNED_INT_8_8_8_8_REV ==> t == UNSIGNED_BYTE
    ensures pixelType != UNSIGNED_INT_8_8_8_8_REV ==> t == pixelType
  {
    if pixelType == UNSIGNED_INT_8_8_8_8_REV then UNSIGNED_BYTE else pixelType
  }

  /** True when the pair must go through `pixel_convert`. */
  predicate NeedsConversion(format: GLenum, pixelType: GLenum)
  {
    !NativeFormat(format) || !(NativeType(pixelType) || pixelType == UNSIGNED_INT_8_8_8_8_REV)
  }

  /** The (format, type, pixels) triple `swizzle_texture` leaves behind:
      the rewritten `*format`/`*type` and the returned pointer. */
  datatype Swizzled = Swizzled(format: GLenum, pixelType: GLenum, pixels: Option<Pixels>)

  function Swizzle(width: nat, height: nat, format: GLenum, pixelType: GLenum,
                   data: Option<Pixels>, convert: Converter): (r: Swizzled)
    // A native pair keeps its format and data; only the alias is renamed.
    ensures !NeedsConversion(format, pixelType) ==>
              r == Swizzled(format, Dealias(pixelType), data)
    // Shape-only call: the pair becomes canonical, no pixels appear.
    ensures NeedsConversion(format, pixelType) && data.None? ==>
              r == Swizzled(RGBA, UNSIGNED_BYTE, None)
    // Conversion requested: either the canonical pair with the converted
    // buffer, or NULL with the (alias-renamed) original pair on failure.
    ensures NeedsConversion(format, pixelType) && data.Some? ==>
              var converted := convert(data.value, width, height, format, Dealias(pixelType));
              (converted.Some? ==> r == Swizzled(RGBA, UNSIGNED_BYTE, converted)) &&
              (converted.None? ==> r == Swizzled(format, Dealias(pixelType), None))
  {
    var t := Dealias(pixelType);
    if !NeedsConversion(format, pixelType) then
      Swizzled(format, t, data)
    else if data.None? then
      Swizzled(RGBA, UNSIGNED_BYTE, None)
    else
      match convert(data.value, width, height, format, t)
      case None => Swizzled(format, t, None)
      case Some(p) => Swizzled(RGBA, UNSIGNED_BYTE, Some(p))
  }

  /** Whatever comes in, what goes out to the embedded API is a native pair,
      unless conversion of real pixels failed (then the upload carries no
      pixels at all). */
  lemma SwizzleYieldsNativePair(width: nat, height: nat, format: GLenum, pixelType: GLenum,
                                data: Option<Pixels>, convert: Converter)
    ensures var r := Swizzle(width, height, format, pixelType, data, convert);
            r.pixels.Some? || data.None? ==> NativeFormat(r.format) && NativeType(r.pixelType)
    ensures var r := Swizzle(width, height, format, pixelType, data, convert);
            r.pixels.None? && data.Some? ==> NeedsConversion(format, pixelType)
  {
  }

  /** Normalising again is a no-op: a second `swizzle_texture` on the
      output keeps format, type and pointer. */
  lemma SwizzleIdempotent(width: nat, height: nat, format: GLenum, pixelType: GLenum,
                          data: Option<Pixels>, convert: Converter)
    requires var r := Swizzle(width, height, format, pixelType, data, convert);
             r.pixels.Some? || data.None?
    ensures var r := Swizzle(width, height, format, pixelType, data, convert);
            Swizzle(width, height, r.format, r.pixelType, r.pixels, convert) == r
  {
    SwizzleYieldsNativePair(width, height, format, pixelType, data, convert);
  }

  /** The canonical pair passes through untouched, with or without data. */
  lemma CanonicalPassesThrough(width: nat, height: nat, data: Option<Pixels>, convert: Converter)
    ensures Swizzle(width, height, RGBA, UNSIGNED_BYTE, data, convert)
            == Swizzled(RGBA, UNSIGNED_BYTE, data)
  {
  }

  /** The alias is renamed and never sent to `pixel_convert`: the pixels
      are those given. */
  lemma AliasIsNotConverted(width: nat, height: nat, format: GLenum,
                            data: Option<Pixels>, convert: Converter)
    requires NativeFormat(format)
    ensures Swizzle(width, height, format, UNSIGNED_INT_8_8_8_8_REV, data, convert)
            == Swizzled(format, UNSIGNED_BYTE, data)
  {
  }
}

=== FILE: gl.dfy ===
/** The vocabulary shared by every part of the texture shim model: the GL
    enumerants the shim inspects (standard Khronos values), the byte type of
    client pixel buffers, and an Option type standing for a pointer that may
    be NULL. */
module GL {

  /** A GLenum. The shim only ever compares enumerants for equality or, for
      texture units, against a range. */
  type GLenum = nat

  newtype byte = x: int | 0 <= x < 256

  /** The bytes of a client or shim-allocated pixel buffer. */
  type Pixels = seq<byte>

  /** `None` is a NULL pointer, `Some(v)` a pointer to `v`. */
  datatype Option<+T> = None | Some(value: T)

  // Pixel formats.
  const ALPHA: GLenum := 0x1906
  const RGB: GLenum := 0x1907
  const RGBA: GLenum := 0x1908
  const LUMINANCE: GLenum := 0x1909
  const LUMINANCE_ALPHA: GLenum := 0x190A

  // Pixel types.
  const UNSIGNED_BYTE: GLenum := 0x1401
  const FLOAT: GLenum := 0x1406
  const UNSIGNED_SHORT_4_4_4_4: GLenum := 0x8033
  const UNSIGNED_SHORT_5_5_5_1: GLenum := 0x8034
  const UNSIGNED_SHORT_5_6_5: GLenum := 0x8363
  const UNSIGNED_INT_8_8_8_8_REV: GLenum := 0x8367

  // Texture targets.
  const TEXTURE_2D: GLenum := 0x0DE1
  const PROXY_TEXTURE_2D: GLenum := 0x8064
  const TEXTURE_RECTANGLE_ARB: GLenum := 0x84F5

  // Texture units: TEXTURE0 + i names unit i.
  const TEXTURE0: GLenum := 0x84C0

  // Pixel-store parameters.
  const UNPACK_LSB_FIRST: GLenum := 0x0CF1
  const UNPACK_ROW_LENGTH: GLenum := 0x0CF2
  const UNPACK_SKIP_ROWS: GLenum := 0x0CF3
  const UNPACK_SKIP_PIXELS: GLenum := 0x0CF4

  // Texture level parameters.
  const TEXTURE_WIDTH: GLenum := 0x1000
  const TEXTURE_HEIGHT: GLenum := 0x1001
  const TEXTURE_INTERNAL_FORMAT: GLenum := 0x1003
  const TEXTURE_DEPTH: GLenum := 0x8071
  const TEXTURE_RED_SIZE: GLenum := 0x805C
  const TEXTURE_GREEN_SIZE: GLenum := 0x805D
  const TEXTURE_BLUE_SIZE: GLenum := 0x805E
  const TEXTURE_ALPHA_SIZE: GLenum := 0x805F
  const TEXTURE_COMPRESSED_IMAGE_SIZE: GLenum := 0x86A0
  const TEXTURE_COMPRESSED: GLenum := 0x86A1
  const TEXTURE_DEPTH_SIZE: GLenum := 0x884A
  const TEXTURE_RED_TYPE: GLenum := 0x8C10
  const TEXTURE_GREEN_TYPE: GLenum := 0x8C11
  const TEXTURE_BLUE_TYPE: GLenum := 0x8C12
  const TEXTURE_ALPHA_TYPE: GLenum := 0x8C13
  const TEXTURE_DEPTH_TYPE: GLenum := 0x8C16

  const FALSE: int := 0
}

/** The calls the shim issues to the embedded (GLES) API, recorded as an
    append-only log instead of being executed. */
module Gles {
  import opened GL

  /** The target argument of a call: passed through as the client gave it,
      or first translated by the external `map_tex_target`, which this model
      leaves uninterpreted and records by its argument. */
  datatype Target = Raw(t: GLenum) | Mapped(t: GLenum)

  datatype Call =
    | TexImage2D(target: Target, level: int, internalFormat: GLenum,
                 width: nat, height: nat, border: int,
                 format: GLenum, pixelType: GLenum, pixels: Option<Pixels>)
    | TexSubImage2D(target: Target, level: int, xoffset: int, yoffset: int,
                    width: nat, height: nat,
                    format: GLenum, pixelType: GLenum, pixels: Option<Pixels>)
    | BindTexture(target: Target, texture: nat)
    | DeleteTextures(textures: seq<nat>)
    | ActiveTexture(unit: GLenum)
    | ClientActiveTexture(unit: GLenum)
    | PixelStorei(pname: GLenum, param: int)
}

=== FILE: npot.dfy ===
/** The power-of-two sizer `npot` (src/gl/texture.c:7-13): the embedded API
    only takes power-of-two textures, so every upload is sized up to the
    least power of two that covers it. */
module Npot {

  /** `x` is 2^k for some k >= 0. */
  predicate IsPow2(x: int)
    decreases if x < 0 then 0 else x
  {
    x == 1 || (x > 1 && x % 2 == 0 && IsPow2(x / 2))
  }

  /** The doubling loop of `npot`, from a power of two `i` that has not yet
      overshot `n` by a factor of two. */
  function Grow(i: int, n: int): (r: int)
    requires IsPow2(i)
    requires i == 1 || i / 2 < n
    ensures IsPow2(r) && r >= n
    ensures r == 1 || r / 2 < n
    decreases n - i
  {
    if i < n then Grow(2 * i, n) else i
  }

  /** `npot(n)`: 0 for 0, otherwise the least power of two that is at least
      `n` (1 for a negative `n`, where the loop body never runs). */
  function NPot(n: int): (r: int)
    ensures n == 0 ==> r == 0
    ensures n != 0 ==> IsPow2(r) && r >= n
    ensures n > 0 ==> r / 2 < n
    ensures n < 0 ==> r == 1
  {
    if n == 0 then 0 else Grow(1, n)
  }

  /** The C loop itself: double `i` from 1 while it is below `n`. */
  method NPotLoop(n: int) returns (i: int)
    ensures i == NPot(n)
  {
    if n == 0 {
      return 0;
    }
    i := 1;
    while i < n
      invariant IsPow2(i)
      invariant i == 1 || i / 2 < n
      invariant Grow(i, n) == Grow(1, n)
      decreases n - i
    {
      assert (2 * i) % 2 == 0 && (2 * i) / 2 == i;
      i := 2 * i;
    }
  }

  /** Between two distinct powers of two there is a factor of at least two. */
  lemma {:induction false} Pow2Order(p: int, q: int)
    requires IsPow2(p) && IsPow2(q) && p < q
    ensures 2 * p <= q
    decreases q
  {
    var h := q / 2;
    assert q > 1 && IsPow2(h) && q == 2 * h;
    if p < h {
      Pow2Order(p, h);
    } else if h < p {
      Pow2Order(h, p);
      assert false;
    }
  }

  /** `npot(n)` is the LEAST power of two at least `n`. */
  lemma NPotIsLeast(n: int, p: int)
    requires n > 0 && IsPow2(p) && p >= n
    ensures NPot(n) <= p
  {
    var r := NPot(n);
    if p < r {
      Pow2Order(p, r);
    }
  }

  /** For positive `n`, `p == npot(n)` exactly when `p` is a power of two,
      covers `n`, and its half does not. */
  lemma NPotCharacterization(n: int, p: int)
    requires n > 0
    ensures NPot(n) == p <==> IsPow2(p) && p >= n && p / 2 < n
  {
    if IsPow2(p) && p >= n && p / 2 < n {
      var r := NPot(n);
      if r < p {
        Pow2Order(r, p);
      } else if p < r {
        Pow2Order(p, r);
      }
    }
  }

  /** A size that is already a power of two is left alone: this is what
      makes the single-call upload path reachable. */
  lemma NPotFixesPow2(n: int)
    requires IsPow2(n)
    ensures NPot(n) == n
  {
    NPotCharacterization(n, n);
  }

  lemma NPotIdempotent(n: int)
    ensures NPot(NPot(n)) == NPot(n)
  {
    if n != 0 {
      NPotFixesPow2(NPot(n));
    }
  }
}

=== FILE: row_unpacker.dfy ===
/** Emulation of the desktop pixel-store unpack parameters
    (GL_UNPACK_ROW_LENGTH, GL_UNPACK_SKIP_PIXELS, GL_UNPACK_SKIP_ROWS), which
    the embedded API lacks: a strided, offset client buffer is copied into a
    tightly packed one before upload (src/gl/texture.c:104-117, 197-210). */
module RowUnpacker {
  import opened GL

  /** The unpack part of the pixel-store state, as `glPixelStorei` sets it. */
  datatype UnpackConfig = UnpackConfig(rowLength: int, skipPixels: int, skipRows: int, lsbFirst: int)

  const Defaults: UnpackConfig := UnpackConfig(0, 0, 0, 0)

  /** The guard of both upload paths: copying is needed exactly when a row
      length other than the width is set, or either skip is nonzero. */
  predicate NeedsUnpack(cfg: UnpackConfig, width: nat)
  {
    (cfg.rowLength != 0 && cfg.rowLength != width) || cfg.skipPixels != 0 || cfg.skipRows != 0
  }

  /** Bytes from the start of one source row to the start of the next. */
  function Stride(cfg: UnpackConfig, width: nat, ps: nat): int
  {
    (if cfg.rowLength != 0 then cfg.rowLength else width) * ps
  }

  /** Offset of the first byte of requested row `y` in the source buffer:
      skip `skipPixels` pixels and `skipRows + y` whole rows. */
  function RowStart(cfg: UnpackConfig, width: nat, ps: nat, y: nat): int
  {
    cfg.skipPixels * ps + (cfg.skipRows + y) * Stride(cfg, width, ps)
  }

  /** The client buffer holds every byte the copy reads: what the desktop
      API demands of the caller. */
  predicate Covers(srcLen: nat, cfg: UnpackConfig, width: nat, height: nat, ps: nat)
  {
    && cfg.rowLength >= 0 && cfg.skipPixels >= 0 && cfg.skipRows >= 0
    && (height > 0 ==> RowStart(cfg, width, ps, height - 1) + width * ps <= srcLen)
  }

  lemma MulMonotone(a: int, b: int, c: int)
    requires 0 <= a <= b && 0 <= c
    ensures 0 <= a * c <= b * c
  {
  }

  lemma MulSucc(a: int, b: int)
    ensures (a + 1) * b == a * b + b
  {
  }

  lemma CoversRow(srcLen: nat, cfg: UnpackConfig, width: nat, height: nat, ps: nat, y: nat)
    requires Covers(srcLen, cfg, width, height, ps) && y < height
    ensures 0 <= RowStart(cfg, width, ps, y)
    ensures RowStart(cfg, width, ps, y) + width * ps <= srcLen
  {
    MulMonotone(cfg.skipRows + y, cfg.skipRows + height - 1, Stride(cfg, width, ps));
  }

  lemma CoversFewer(srcLen: nat, cfg: UnpackConfig, width: nat, height: nat, ps: nat, k: nat)
    requires Covers(srcLen, cfg, width, height, ps) && k <= height
    ensures Covers(srcLen, cfg, width, k, ps)
  {
    if k > 0 {
      CoversRow(srcLen, cfg, width, height, ps, k - 1);
    }
  }

  /** Source row `y` of the requested sub-rectangle. */
  function SourceRow(src: Pixels, cfg: UnpackConfig, width: nat, height: nat, ps: nat, y: nat): (r: Pixels)
    requires Covers(|src|, cfg, width, height, ps) && y < height
    ensures |r| == width * ps
  {
    CoversRow(|src|, cfg, width, height, ps, y);
    var start := RowStart(cfg, width, ps, y);
    src[start .. start + width * ps]
  }

  /** The sub-image unpacker (src/gl/texture.c:197-210): the first `height`
      requested rows, each `width * ps` bytes, one after another. */
  function Unpack(src: Pixels, cfg: UnpackConfig, width: nat, height: nat, ps: nat): (r: Pixels)
    requires Covers(|src|, cfg, width, height, ps)
    ensures |r| == height * (width * ps)
    decreases height
  {
    if height == 0 then []
    else
      CoversFewer(|src|, cfg, width, height, ps, height - 1);
      MulSucc(height - 1, width * ps);
      Unpack(src, cfg, width, height - 1, ps) + SourceRow(src, cfg, width, height, ps, height - 1)
  }

  lemma PrefixOfConcat<T>(a: seq<T>, b: seq<T>, k: nat)
    requires k <= |a|
    ensures (a + b)[.. k] == a[.. k]
  {
  }

  /** Unpacking fewer rows yields a prefix of the packed output. */
  lemma {:induction false} UnpackPrefix(src: Pixels, cfg: UnpackConfig, width: nat, height: nat, ps: nat, k: nat)
    requires Covers(|src|, cfg, width, height, ps) && k <= height
    ensures Covers(|src|, cfg, width, k, ps)
    ensures |Unpack(src, cfg, width, k, ps)| <= |Unpack(src, cfg, width, height, ps)|
    ensures Unpack(src, cfg, width, height, ps)[.. |Unpack(src, cfg, width, k, ps)|]
            == Unpack(src, cfg, width, k, ps)
    decreases height
  {
    CoversFewer(|src|, cfg, width, height, ps, k);
    if k < height {
      CoversFewer(|src|, cfg, width, height, ps, height - 1);
      UnpackPrefix(src, cfg, width, height - 1, ps, k);
      var prev := Unpack(src, cfg, width, height - 1, ps);
      assert Unpack(src, cfg, width, height, ps) == prev + SourceRow(src, cfg, width, height, ps, height - 1);
      PrefixOfConcat(prev, SourceRow(src, cfg, width, height, ps, height - 1), |Unpack(src, cfg, width, k, ps)|);
    }
  }

  /** Row `y` of the packed output is exactly source row `y` of the
      requested sub-rectangle. */
  lemma {:induction false} UnpackRow(src: Pixels, cfg: UnpackConfig, width: nat, height: nat, ps: nat, y: nat)
    requires Covers(|src|, cfg, width, height, ps) && y < height
    ensures (y + 1) * (width * ps) == y * (width * ps) + width * ps
    ensures (y + 1) * (width * ps) <= height * (width * ps)
    ensures Unpack(src, cfg, width, height, ps)[y * (width * ps) .. (y + 1) * (width * ps)]
            == SourceRow(src, cfg, width, height, ps, y)
  {
    MulSucc(y, width * ps);
    MulMonotone(y + 1, height, width * ps);
    UnpackPrefix(src, cfg, width, height, ps, y + 1);
    CoversFewer(|src|, cfg, width, height, ps, y);
    var out := Unpack(src, cfg, width, height, ps);
    var upto := Unpack(src, cfg, width, y + 1, ps);
    var before := Unpack(src, cfg, width, y, ps);
    var row := SourceRow(src, cfg, width, y + 1, ps, y);
    assert upto == before + row;
    assert out[|before| .. |upto|] == upto[|before| ..];
  }

  /** Byte for byte: packed byte `x` of row `y` is the source byte at
      `skipPixels*ps + (skipRows+y)*stride + x`. */
  lemma UnpackByte(src: Pixels, cfg: UnpackConfig, width: nat, height: nat, ps: nat, y: nat, x: nat)
    requires Covers(|src|, cfg, width, height, ps) && y < height && x < width * ps
    ensures 0 <= cfg.skipPixels * ps + (cfg.skipRows + y) * Stride(cfg, width, ps) + x < |src|
    ensures y * (width * ps) + x < |Unpack(src, cfg, width, height, ps)|
    ensures Unpack(src, cfg, width, height, ps)[y * (width * ps) + x]
            == src[cfg.skipPixels * ps + (cfg.skipRows + y) * Stride(cfg, width, ps) + x]
  {
    CoversRow(|src|, cfg, width, height, ps, y);
    UnpackRow(src, cfg, width, height, ps, y);
    var out := Unpack(src, cfg, width, height, ps);
    assert out[y * (width * ps) + x] == out[y * (width * ps) .. (y + 1) * (width * ps)][x];
  }

  /** What both upload paths hand on: the packed copy when unpacking is
      needed, the client's own buffer otherwise. */
  function ApplyUnpack(src: Pixels, cfg: UnpackConfig, width: nat, height: nat, ps: nat): (r: Pixels)
    requires NeedsUnpack(cfg, width) ==> Covers(|src|, cfg, width, height, ps)
    ensures !NeedsUnpack(cfg, width) ==> r == src
    ensures NeedsUnpack(cfg, width) ==> |r| == height * (width * ps)
  {
    if NeedsUnpack(cfg, width) then Unpack(src, cfg, width, height, ps) else src
  }

  /** A buffer that needs no unpacking is already the packed image: the
      pass-through loses nothing. */
  lemma {:induction false} PackedIsUnpacked(src: Pixels, cfg: UnpackConfig, width: nat, height: nat, ps: nat)
    requires !NeedsUnpack(cfg, width)
    requires height * (width * ps) <= |src|
    ensures Covers(|src|, cfg, width, height, ps)
    ensures Unpack(src, cfg, width, height, ps) == src[.. height * (width * ps)]
    decreases height
  {
    var rb := width * ps;
    assert Stride(cfg, width, ps) == rb;
    if height > 0 {
      assert RowStart(cfg, width, ps, height - 1) == (height - 1) * rb;
      MulMonotone(height - 1, height, rb);
      PackedIsUnpacked(src, cfg, width, height - 1, ps);
      assert src[.. height * rb] == src[.. (height - 1) * rb] + src[(height - 1) * rb .. height * rb];
    }
  }

  /** Skipping the copy when it is not needed never changes the pixels the
      embedded API reads. */
  lemma UnpackDecisionIsSound(src: Pixels, cfg: UnpackConfig, width: nat, height: nat, ps: nat)
    requires Covers(|src|, cfg, width, height, ps)
    ensures height * (width * ps) <= |ApplyUnpack(src, cfg, width, height, ps)|
    ensures ApplyUnpack(src, cfg, width, height, ps)[.. height * (width * ps)]
            == Unpack(src, cfg, width, height, ps)
  {
    if !NeedsUnpack(cfg, width) {
      if height > 0 {
        assert RowStart(cfg, width, ps, height - 1) == (height - 1) * (width * ps);
      }
      PackedIsUnpacked(src, cfg, width, height, ps);
    }
  }

  /** The copy loop of the sub-image path: `memcpy` one row, advance the
      source by the stride and the destination by the packed row size. */
  method UnpackCopy(src: Pixels, cfg: UnpackConfig, width: nat, height: nat, ps: nat) returns (dst: Pixels)
    requires Covers(|src|, cfg, width, height, ps)
    ensures |dst| == height * (width * ps)
    ensures dst == Unpack(src, cfg, width, height, ps)
  {
    var stride := Stride(cfg, width, ps);
    var s := cfg.skipPixels * ps + cfg.skipRows * stride;
    dst := [];
    var y: nat := 0;
    while y < height
      invariant y <= height
      invariant s == RowStart(cfg, width, ps, y)
      invariant Covers(|src|, cfg, width, y, ps)
      invariant dst == Unpack(src, cfg, width, y, ps)
    {
      CoversRow(|src|, cfg, width, height, ps, y);
      CoversFewer(|src|, cfg, width, height, ps, y + 1);
      assert Unpack(src, cfg, width, y + 1, ps) == dst + SourceRow(src, cfg, width, y + 1, ps, y);
      dst := dst + src[s .. s + width * ps];
      s := s + stride;
      y := y + 1;
    }
  }

  // ---------------------------------------------------------------------
  // The base-level path as written (src/gl/texture.c:104-117). It differs
  // from the sub-image path in two places: the skip-pixels offset is added
  // as a byte count (line 111), and the destination advances by `width`
  // bytes instead of `width * ps` (line 115). The rest of the model uses
  // `Unpack` for both paths.

  /** Offset of source row `y` on the base-level path. */
  function BaseRowStart(cfg: UnpackConfig, width: nat, ps: nat, y: nat): int
  {
    cfg.skipPixels + (cfg.skipRows + y) * Stride(cfg, width, ps)
  }

  predicate BaseCovers(srcLen: nat, cfg: UnpackConfig, width: nat, height: nat, ps: nat)
  {
    && cfg.rowLength >= 0 && cfg.skipPixels >= 0 && cfg.skipRows >= 0
    && (height > 0 ==> BaseRowStart(cfg, width, ps, height - 1) + width * ps <= srcLen)
  }

  function Lift(bytes: Pixels): (r: seq<Option<byte>>)
    ensures |r| == |bytes|
    ensures forall i :: 0 <= i < |r| ==> r[i] == Some(bytes[i])
  {
    seq(|bytes|, i requires 0 <= i < |bytes| => Some(bytes[i]))
  }

  /** `memcpy(buf + at, bytes, |bytes|)`. */
  function Overwrite<T>(buf: seq<T>, at: nat, bytes: seq<T>): (r: seq<T>)
    requires at + |bytes| <= |buf|
    ensures |r| == |buf|
    ensures forall i :: 0 <= i < |r| ==> r[i] == if at <= i < at + |bytes| then bytes[i - at] else buf[i]
  {
    buf[..at] + bytes + buf[at + |bytes|..]
  }

  lemma BaseDestinationFits(width: nat, height: nat, ps: nat, n: nat)
    requires 0 < n <= height && 0 < width * ps
    ensures 0 <= (n - 1) * width
    ensures (n - 1) * width + width * ps <= height * (width * ps)
  {
    assert ps >= 1;
    MulMonotone(n - 1, height - 1, width);
    MulMonotone(width, width * ps, height - 1);
    assert (height - 1) * width <= (height - 1) * (width * ps);
  }

  /** Source row `y` as the base-level path reads it. */
  function BaseSourceRow(src: Pixels, cfg: UnpackConfig, width: nat, height: nat, ps: nat, y: nat): (r: Pixels)
    requires BaseCovers(|src|, cfg, width, height, ps) && y < height
    ensures |r| == width * ps
  {
    MulMonotone(cfg.skipRows + y, cfg.skipRows + height - 1, Stride(cfg, width, ps));
    var start := BaseRowStart(cfg, width, ps, y);
    src[start .. start + width * ps]
  }

  /** The malloc'd destination after the first `n` row copies; `None` marks
      a byte never written. */
  function BaseFill(src: Pixels, cfg: UnpackConfig, width: nat, height: nat, ps: nat, n: nat): (r: seq<Option<byte>>)
    requires n <= height && BaseCovers(|src|, cfg, width, height, ps)
    ensures |r| == height * (width * ps)
    decreases n
  {
    if n == 0 then seq(height * (width * ps), _ => None)
    else
      var prev := BaseFill(src, cfg, width, height, ps, n - 1);
      var row := Lift(BaseSourceRow(src, cfg, width, height, ps, n - 1));
      if |row| == 0 then prev
      else
        BaseDestinationFits(width, height, ps, n);
        Overwrite(prev, (n - 1) * width, row)
  }

  /** The base-level copy as written. */
  function UnpackBaseAsWritten(src: Pixels, cfg: UnpackConfig, width: nat, height: nat, ps: nat): (r: seq<Option<byte>>)
    requires BaseCovers(|src|, cfg, width, height, ps)
    ensures |r| == height * (width * ps)
  {
    BaseFill(src, cfg, width, height, ps, height)
  }

  function Unwritten(k: nat): (r: seq<Option<byte>>)
    ensures |r| == k && forall i :: 0 <= i < k ==> r[i].None?
  {
    seq(k, _ => None)
  }

  lemma LiftAppend(a: Pixels, b: Pixels)
    ensures Lift(a + b) == Lift(a) + Lift(b)
  {
  }

  /** Writing a row right after the written prefix consumes the front of
      the unwritten tail. */
  lemma OverwriteAfterPrefix(a: seq<Option<byte>>, row: Pixels, k: nat)
    ensures |a| + |row| <= |a + Unwritten(|row| + k)|
    ensures Overwrite(a + Unwritten(|row| + k), |a|, Lift(row)) == a + Lift(row) + Unwritten(k)
  {
  }

  /** One base-level row copy with one-byte pixels: the destination
      offset is the length of the packed prefix, so the row lands right
      after it. */
  lemma BaseFillByteStep(src: Pixels, cfg: UnpackConfig, width: nat, height: nat, n: nat,
                         packed: Pixels, row: Pixels, k: nat)
    requires 0 < n <= height && BaseCovers(|src|, cfg, width, height, 1)
    requires BaseFill(src, cfg, width, height, 1, n - 1) == Lift(packed) + Unwritten(|row| + k)
    requires row == BaseSourceRow(src, cfg, width, height, 1, n - 1)
    requires |packed| == (n - 1) * width
    ensures BaseFill(src, cfg, width, height, 1, n) == Lift(packed + row) + Unwritten(k)
  {
    LiftAppend(packed, row);
    if width > 0 {
      BaseDestinationFits(width, height, 1, n);
      OverwriteAfterPrefix(Lift(packed), row, k);
    }
  }

  /** With one-byte pixels the base-level and the packed row offsets
      coincide, so base-level row `y` is packed row `y`. */
  lemma BaseRowIsSourceRow(src: Pixels, cfg: UnpackConfig, width: nat, height: nat, n: nat)
    requires 0 < n <= height && Covers(|src|, cfg, width, height, 1) && BaseCovers(|src|, cfg, width, height, 1)
    ensures Covers(|src|, cfg, width, n, 1)
    ensures BaseSourceRow(src, cfg, width, height, 1, n - 1) == SourceRow(src, cfg, width, n, 1, n - 1)
  {
    CoversFewer(|src|, cfg, width, height, 1, n);
    assert BaseRowStart(cfg, width, 1, n - 1) == RowStart(cfg, width, 1, n - 1);
  }

  /** The inductive step of `BaseFillBytePixels`. */
  lemma BaseFillByteNext(src: Pixels, cfg: UnpackConfig, width: nat, height: nat, n: nat)
    requires 0 < n <= height && Covers(|src|, cfg, width, height, 1) && BaseCovers(|src|, cfg, width, height, 1)
    requires Covers(|src|, cfg, width, n - 1, 1)
    requires 0 <= (height - n) * width <= (height - (n - 1)) * width
    requires BaseFill(src, cfg, width, height, 1, n - 1)
             == Lift(Unpack(src, cfg, width, n - 1, 1)) + Unwritten((height - (n - 1)) * width)
    ensures Covers(|src|, cfg, width, n, 1)
    ensures BaseFill(src, cfg, width, height, 1, n)
            == Lift(Unpack(src, cfg, width, n, 1)) + Unwritten((height - n) * width)
  {
    BaseRowIsSourceRow(src, cfg, width, height, n);
    var packed := Unpack(src, cfg, width, n - 1, 1);
    var row := BaseSourceRow(src, cfg, width, height, 1, n - 1);
    assert Unpack(src, cfg, width, n, 1) == packed + row;
    MulMonotone(0, height - n, width);
    var k: nat := (height - n) * width;
    assert (height - (n - 1)) * width == |row| + k by {
      MulSucc(height - n, width);
    }
    BaseFillByteStep(src, cfg, width, height, n, packed, row, k);
  }

  /** With one-byte pixels both base-level discrepancies vanish: after `n`
      row copies the buffer holds the first `n` packed rows, the rest
      still unwritten. */
  lemma {:induction false} BaseFillBytePixels(src: Pixels, cfg: UnpackConfig, width: nat, height: nat, n: nat)
    requires n <= height && Covers(|src|, cfg, width, height, 1)
    ensures BaseCovers(|src|, cfg, width, height, 1)
    ensures Covers(|src|, cfg, width, n, 1)
    ensures BaseFill(src, cfg, width, height, 1, n)
            == Lift(Unpack(src, cfg, width, n, 1)) + Unwritten((height - n) * width)
    decreases n
  {
    assert BaseCovers(|src|, cfg, width, height, 1) by {
      if height > 0 {
        assert BaseRowStart(cfg, width, 1, height - 1) == RowStart(cfg, width, 1, height - 1);
      }
    }
    if n == 0 {
      assert BaseFill(src, cfg, width, height, 1, 0) == Unwritten(height * width);
    } else {
      BaseFillBytePixels(src, cfg, width, height, n - 1);
      MulMonotone(height - n, height - (n - 1), width);
      BaseFillByteNext(src, cfg, width, height, n);
    }
  }

  /** Hence the base-level copy is right for one-byte pixels (ALPHA,
      LUMINANCE with UNSIGNED_BYTE): the defect needs a pixel of two bytes
      or more. */
  lemma BaseAgreesForBytePixels(src: Pixels, cfg: UnpackConfig, width: nat, height: nat)
    requires Covers(|src|, cfg, width, height, 1)
    ensures BaseCovers(|src|, cfg, width, height, 1)
    ensures UnpackBaseAsWritten(src, cfg, width, height, 1) == Lift(Unpack(src, cfg, width, height, 1))
  {
    BaseFillBytePixels(src, cfg, width, height, height);
  }

  /** With a skip of one 2-byte pixel, the base-level path starts one BYTE
      in, in the middle of a pixel, where the sub-image unpacker `Unpack` starts one
      pixel in. */
  lemma BaseSkipPixelsOffsetDiffers()
    ensures var cfg := UnpackConfig(0, 1, 0, 0);
            var src: Pixels := [10, 11, 12, 13];
            && Covers(|src|, cfg, 1, 1, 2) && BaseCovers(|src|, cfg, 1, 1, 2)
            && Unpack(src, cfg, 1, 1, 2) == [12, 13]
            && UnpackBaseAsWritten(src, cfg, 1, 1, 2) == [Some(11), Some(12)]
  {
    var cfg := UnpackConfig(0, 1, 0, 0);
    var src: Pixels := [10, 11, 12, 13];
    assert Covers(|src|, cfg, 1, 1, 2);
    assert Unpack(src, cfg, 1, 0, 2) == [];
    assert SourceRow(src, cfg, 1, 1, 2, 0) == src[2..4] == [12, 13];
    assert Unpack(src, cfg, 1, 1, 2) == [12, 13];
    var fill0 := BaseFill(src, cfg, 1, 1, 2, 0);
    assert fill0 == [None, None];
    assert BaseSourceRow(src, cfg, 1, 1, 2, 0) == src[1..3] == [11, 12];
    assert Lift([11, 12]) == [Some(11), Some(12)];
  }

  /** With two rows of a 2-byte pixel, the base-level path writes the
      second row one byte after the first instead of one row after it,
      overwriting half of row 0 and leaving the last byte unwritten. */
  lemma BaseRowAdvanceDiffers()
    ensures var cfg := UnpackConfig(0, 0, 1, 0);
            var src: Pixels := [0, 1, 2, 3, 4, 5];
            && Covers(|src|, cfg, 1, 2, 2) && BaseCovers(|src|, cfg, 1, 2, 2)
            && Unpack(src, cfg, 1, 2, 2) == [2, 3, 4, 5]
            && UnpackBaseAsWritten(src, cfg, 1, 2, 2) == [Some(2), Some(4), Some(5), None]
  {
    var cfg := UnpackConfig(0, 0, 1, 0);
    var src: Pixels := [0, 1, 2, 3, 4, 5];
    assert Covers(|src|, cfg, 1, 2, 2);
    assert Unpack(src, cfg, 1, 0, 2) == [];
    assert SourceRow(src, cfg, 1, 1, 2, 0) == src[2..4] == [2, 3];
    assert Unpack(src, cfg, 1, 1, 2) == [2, 3];
    assert SourceRow(src, cfg, 1, 2, 2, 1) == src[4..6] == [4, 5];
    assert Unpack(src, cfg, 1, 2, 2) == [2, 3] + [4, 5];
    var fill0 := BaseFill(src, cfg, 1, 2, 2, 0);
    assert fill0 == [None, None, None, None];
    assert BaseSourceRow(src, cfg, 1, 2, 2, 0) == [2, 3];
    assert Lift([2, 3]) == [Some(2), Some(3)];
    var fill1 := BaseFill(src, cfg, 1, 2, 2, 1);
    assert fill1 == [Some(2), Some(3), None, None];
    assert BaseSourceRow(src, cfg, 1, 2, 2, 1) == [4, 5];
    assert Lift([4, 5]) == [Some(4), Some(5)];
  }
}

=== FILE: tex_query.dfy ===
/** The read-side entry points: `glGetTexLevelParameteriv`
    (src/gl/texture.c:365-413), answered from tracked state or fixed
    defaults, and the guards and binding restore of `glGetTexImage`
    (src/gl/texture.c:415-487). */
module TexQuery {
  import opened GL
  import Gles
  import opened FormatNormalizer
  import opened TexState
  import opened TexUpload

  /** The size reported for a proxy target or when nothing is bound. */
  const DefaultSize: nat := 2048

  predicate KnownParameter(pname: GLenum)
  {
    pname in {TEXTURE_WIDTH, TEXTURE_HEIGHT, TEXTURE_INTERNAL_FORMAT, TEXTURE_DEPTH,
              TEXTURE_RED_TYPE, TEXTURE_GREEN_TYPE, TEXTURE_BLUE_TYPE, TEXTURE_ALPHA_TYPE, TEXTURE_DEPTH_TYPE,
              TEXTURE_RED_SIZE, TEXTURE_GREEN_SIZE, TEXTURE_BLUE_SIZE, TEXTURE_ALPHA_SIZE,
              TEXTURE_DEPTH_SIZE, TEXTURE_COMPRESSED, TEXTURE_COMPRESSED_IMAGE_SIZE}
  }

  /** `*params` after `glGetTexLevelParameteriv(target, level, pname, params)`.
      The target is only consulted to recognise the proxy. */
  function LevelParameter(s: State, target: GLenum, level: nat, pname: GLenum): (r: int)
    requires Valid(s)
    // Sizes come from the bound texture, halved per level; the proxy
    // target and an empty unit report the 2048 default.
    ensures pname == TEXTURE_WIDTH ==>
              r == Shr(if target == PROXY_TEXTURE_2D || Current(s).None? then DefaultSize
                       else Current(s).value.width, level)
    ensures pname == TEXTURE_HEIGHT ==>
              r == Shr(if target == PROXY_TEXTURE_2D || Current(s).None? then DefaultSize
                       else Current(s).value.height, level)
    ensures pname == TEXTURE_COMPRESSED_IMAGE_SIZE ==>
              r == (if Current(s).None? then 0 else Current(s).value.width * Current(s).value.height * 4)
    // Everything else is a constant describing an RGBA8 image.
    ensures pname == TEXTURE_INTERNAL_FORMAT ==> r == RGBA
    ensures pname in {TEXTURE_RED_TYPE, TEXTURE_GREEN_TYPE, TEXTURE_BLUE_TYPE, TEXTURE_ALPHA_TYPE, TEXTURE_DEPTH_TYPE} ==> r == FLOAT
    ensures pname in {TEXTURE_RED_SIZE, TEXTURE_GREEN_SIZE, TEXTURE_BLUE_SIZE, TEXTURE_ALPHA_SIZE} ==> r == 8
    ensures pname in {TEXTURE_DEPTH, TEXTURE_DEPTH_SIZE} ==> r == 0
    ensures pname == TEXTURE_COMPRESSED ==> r == FALSE
    ensures !KnownParameter(pname) ==> r == 0
    ensures r >= 0
  {
    var bound := Current(s);
    if pname == TEXTURE_WIDTH then
      if target == PROXY_TEXTURE_2D then Shr(DefaultSize, level)
      else Shr(if bound.Some? then bound.value.width else DefaultSize, level)
    else if pname == TEXTURE_HEIGHT then
      if target == PROXY_TEXTURE_2D then Shr(DefaultSize, level)
      else Shr(if bound.Some? then bound.value.height else DefaultSize, level)
    else if pname == TEXTURE_INTERNAL_FORMAT then RGBA
    else if pname == TEXTURE_DEPTH then 0
    else if pname in {TEXTURE_RED_TYPE, TEXTURE_GREEN_TYPE, TEXTURE_BLUE_TYPE, TEXTURE_ALPHA_TYPE, TEXTURE_DEPTH_TYPE} then FLOAT
    else if pname in {TEXTURE_RED_SIZE, TEXTURE_GREEN_SIZE, TEXTURE_BLUE_SIZE, TEXTURE_ALPHA_SIZE} then 8
    else if pname == TEXTURE_DEPTH_SIZE then 0
    else if pname == TEXTURE_COMPRESSED then FALSE
    else if pname == TEXTURE_COMPRESSED_IMAGE_SIZE then
      if bound.Some? then bound.value.width * bound.value.height * 4 else 0
    else 0
  }

  /** `x >> k` for a non-negative `x`: `k` halvings, each rounding down. */
  function Shr(x: nat, k: nat): nat
  {
    if k == 0 then x else Shr(x / 2, k - 1)
  }

  lemma {:induction false} ShrStep(x: nat, k: nat)
    ensures Shr(x, k + 1) == Shr(x, k) / 2
    decreases k
  {
    if k > 0 {
      ShrStep(x / 2, k - 1);
    }
  }

  /** Each mip level reports half the size of the level above, rounded
      down. */
  lemma LevelHalvesSize(s: State, target: GLenum, level: nat, pname: GLenum)
    requires Valid(s) && pname in {TEXTURE_WIDTH, TEXTURE_HEIGHT}
    ensures LevelParameter(s, target, level + 1, pname) == LevelParameter(s, target, level, pname) / 2
  {
    var bound := Current(s);
    var x: nat :=
      if target == PROXY_TEXTURE_2D || bound.None? then DefaultSize
      else if pname == TEXTURE_WIDTH then bound.value.width else bound.value.height;
    ShrStep(x, level);
  }

  /** After a base-level upload to the bound texture, the queries report
      the uploaded size and its byte count. */
  lemma QueryAfterUpload(s: State, target: GLenum, internalFormat: GLenum, width: nat, height: nat,
                         border: int, format: GLenum, pixelType: GLenum,
                         data: Option<Pixels>, ps: nat, convert: Converter, queryTarget: GLenum)
    requires Valid(s) && target != PROXY_TEXTURE_2D && queryTarget != PROXY_TEXTURE_2D
    requires s.bound[s.active].Some?
    requires ImageReadable(s.unpack, width, height, data, ps)
    ensures var s1 := TexImage2D(s, target, 0, internalFormat, width, height, border,
                                 format, pixelType, data, ps, convert).state;
            && LevelParameter(s1, queryTarget, 0, TEXTURE_WIDTH) == width
            && LevelParameter(s1, queryTarget, 0, TEXTURE_HEIGHT) == height
            && LevelParameter(s1, queryTarget, 0, TEXTURE_COMPRESSED_IMAGE_SIZE) == width * height * 4
  {
  }

  /** Once the bound texture is deleted, queries fall back to the
      defaults. */
  lemma QueryAfterDelete(s: State, level: nat)
    requires Valid(s) && !s.list.active && s.bound[s.active].Some?
    ensures var s1 := DeleteTextures(s, [s.bound[s.active].value]).state;
            && LevelParameter(s1, TEXTURE_2D, level, TEXTURE_WIDTH) == Shr(DefaultSize, level)
            && LevelParameter(s1, TEXTURE_2D, level, TEXTURE_COMPRESSED_IMAGE_SIZE) == 0
  {
  }

  // ------------------------------------------------------------------
  // glGetTexImage

  /** What `glGetTexImage` does with the request. The off-screen draw and
      `glReadPixels` of the `Rendered` case go through extension entry
      points and are not modelled; only the tracked state is. */
  datatype Readback = NotBound | Unsupported | Rendered(texture: nat, width: nat, height: nat)

  datatype ReadStep = ReadStep(outcome: Readback, state: State, calls: seq<Gles.Call>)

  /** The guards: something bound, level 0, RGBA, UNSIGNED_BYTE. */
  predicate ReadbackSupported(level: int, format: GLenum, pixelType: GLenum)
  {
    level == 0 && format == RGBA && pixelType == UNSIGNED_BYTE
  }

  /** `glGetTexImage` as written: after the readback the previous texture
      is rebound with `glBindTexture(GL_TEXTURE_2D, old)`. */
  function GetTexImage(s: State, target: GLenum, level: int, format: GLenum, pixelType: GLenum): (r: ReadStep)
    requires Valid(s)
    ensures Valid(r.state)
    ensures Current(s).None? ==> r == ReadStep(NotBound, s, [])
    ensures Current(s).Some? && !ReadbackSupported(level, format, pixelType) ==> r == ReadStep(Unsupported, s, [])
    ensures Current(s).Some? && ReadbackSupported(level, format, pixelType) ==>
              var t := Current(s).value;
              && r.outcome == Rendered(t.name, t.width, t.height)
              // The binding and the store come back as they were ...
              && r.state.bound == s.bound && r.state.store == s.store
              // ... but the restore bind resets the rectangle flag.
              && (!s.list.active ==> r.state.rectArb == s.rectArb[s.active := false])
              && (s.list.active ==> r.state == s)
    // Apart from that flag nothing changes, and the one call issued is the
    // restore bind.
    ensures Current(s).Some? && ReadbackSupported(level, format, pixelType) && !s.list.active ==>
              && r.state.(rectArb := s.rectArb) == s
              && r.calls == [Gles.BindTexture(Gles.Mapped(TEXTURE_2D), Current(s).value.name)]
    // With a list active the restore bind goes to the recorder: no call.
    ensures s.list.active ==> r.calls == []
  {
    match Current(s)
    case None => ReadStep(NotBound, s, [])
    case Some(t) =>
      if !ReadbackSupported(level, format, pixelType) then ReadStep(Unsupported, s, [])
      else
        var restore := BindTexture(s, TEXTURE_2D, t.name);
        ReadStep(Rendered(t.name, t.width, t.height), restore.state, restore.calls)
  }

  /** A rectangle texture read back loses its rectangle flag: bind texture
      5 as a rectangle texture on a fresh context, read it back, and unit 0
      is no longer marked as a rectangle unit. */
  lemma GetTexImageClearsRectangleFlag()
    ensures var s := BindTexture(Init(), TEXTURE_RECTANGLE_ARB, 5).state;
            && s.rectArb[0]
            && !GetTexImage(s, TEXTURE_RECTANGLE_ARB, 0, RGBA, UNSIGNED_BYTE).state.rectArb[0]
  {
  }

  /** `glGetTexImage` with the restore rebinding under the target the unit
      had: the readback leaves the tracked state exactly as it found it. */
  function GetTexImageRestoring(s: State, target: GLenum, level: int, format: GLenum, pixelType: GLenum): (r: ReadStep)
    requires Valid(s)
    ensures r.state == s
    ensures Current(s).None? ==> r.outcome == NotBound
    ensures Current(s).Some? && !ReadbackSupported(level, format, pixelType) ==> r.outcome == Unsupported
    ensures Current(s).Some? && ReadbackSupported(level, format, pixelType) ==>
              r.outcome == Rendered(Current(s).value.name, Current(s).value.width, Current(s).value.height)
  {
    match Current(s)
    case None => ReadStep(NotBound, s, [])
    case Some(t) =>
      if !ReadbackSupported(level, format, pixelType) then ReadStep(Unsupported, s, [])
      else
        var unitTarget := if s.rectArb[s.active] then TEXTURE_RECTANGLE_ARB else TEXTURE_2D;
        var restore := BindTexture(s, unitTarget, t.name);
        assert restore.state.bound == s.bound;
        assert restore.state.rectArb == s.rectArb;
        ReadStep(Rendered(t.name, t.width, t.height), restore.state, restore.calls)
  }
}

=== FILE: tex_state.dfy ===
/** The texture store and texture-unit state of the shim, as a state
    machine: `glBindTexture` (list-free path), `glDeleteTextures`,
    `glActiveTexture`, `glClientActiveTexture` and `glPixelStorei`
    (src/gl/texture.c:257-359, 489-511). */
module TexState {
  import opened GL
  import Gles
  import opened Npot
  import opened RowUnpacker

  /** Number of texture units. Its value comes from a header that is not
      part of this model; nothing proved here depends on it. */
  const MAX_TEX: nat := 8

  /** `gltexture_t`: one texture name as tracked by the shim. */
  datatype TexRecord = TexRecord(name: nat, target: GLenum,
                                 width: nat, height: nat,
                                 nwidth: nat, nheight: nat,
                                 uploaded: bool)

  /** The command-list recorder's two flags this file reads: a list is
      active (`state.list.active`), and it is being compiled
      (`state.list.compiling`). The recorder itself is external. */
  datatype ListState = ListState(active: bool, compiling: bool)

  /** `state.texture` plus the list flags. `bound[u]` is the name bound on
      server unit `u`, standing for the C pointer into the store. */
  datatype State = State(store: map<nat, TexRecord>,
                         bound: seq<Option<nat>>,
                         rectArb: seq<bool>,
                         active: nat,
                         client: nat,
                         unpack: UnpackConfig,
                         list: ListState)

  /** The result of one entry point: the new state and the calls issued
      to the embedded API, in order. */
  datatype Step = Step(state: State, calls: seq<Gles.Call>)

  /** The record for a name never seen before. */
  function Fresh(name: nat, target: GLenum): TexRecord
  {
    TexRecord(name, target, 0, 0, 0, 0, false)
  }

  /** Tracked storage size is the power-of-two cover of the tracked size. */
  predicate GeometryOk(t: TexRecord)
  {
    t.nwidth == NPot(t.width) && t.nheight == NPot(t.height)
  }

  predicate Valid(s: State)
  {
    && |s.bound| == MAX_TEX && |s.rectArb| == MAX_TEX
    && s.active < MAX_TEX && s.client < MAX_TEX
    // No unit ever refers to a deleted texture.
    && (forall u :: 0 <= u < |s.bound| && s.bound[u].Some? ==> s.bound[u].value in s.store)
    // Each record is stored under its own nonzero name.
    && (forall n :: n in s.store ==> n != 0 && s.store[n].name == n && GeometryOk(s.store[n]))
  }

  /** The state of a fresh context: empty store, nothing bound, unit 0 on
      both axes, default unpack parameters, no list. */
  function Init(): (s: State)
    ensures Valid(s)
    ensures forall u :: 0 <= u < |s.bound| ==> s.bound[u].None? && !s.rectArb[u]
  {
    State(map[], seq(MAX_TEX, _ => None), seq(MAX_TEX, _ => false), 0, 0, Defaults, ListState(false, false))
  }

  /** The record bound on the active server unit (`bound[active]`). */
  function Current(s: State): (r: Option<TexRecord>)
    requires Valid(s)
    ensures r.Some? <==> s.bound[s.active].Some?
    ensures r.Some? ==> r.value == s.store[s.bound[s.active].value]
  {
    match s.bound[s.active]
    case None => None
    case Some(n) => Some(s.store[n])
  }

  /** The condition under which `PUSH_IF_COMPILING` hands the call to the
      recorder and returns. */
  predicate Composing(l: ListState)
  {
    l.compiling && l.active
  }

  // ------------------------------------------------------------------
  // glBindTexture (src/gl/texture.c:279-321)

  function BindTexture(s: State, target: GLenum, texture: nat): (r: Step)
    requires Valid(s)
    ensures Valid(r.state)
    // While a list is active, the call goes to the recorder only.
    ensures s.list.active ==> r == Step(s, [])
    ensures !s.list.active ==>
      && r.calls == [Gles.BindTexture(Gles.Mapped(target), texture)]
      // Only the active unit's slot and rectangle flag change.
      && |r.state.bound| == |s.bound|
      && (forall u :: 0 <= u < |s.bound| && u != s.active ==> r.state.bound[u] == s.bound[u])
      && (texture == 0 ==> r.state.bound[s.active] == None)
      && (texture != 0 ==> r.state.bound[s.active] == Some(texture))
      && r.state.rectArb == s.rectArb[s.active := target == TEXTURE_RECTANGLE_ARB]
      // An unseen nonzero name gets exactly one new, empty record;
      // existing records, target included, are kept.
      && r.state.store.Keys == s.store.Keys + (if texture == 0 then {} else {texture})
      && (forall n :: n in s.store ==> r.state.store[n] == s.store[n])
      && (texture != 0 && texture !in s.store ==> r.state.store[texture] == Fresh(texture, target))
      && r.state.active == s.active && r.state.client == s.client
      && r.state.unpack == s.unpack && r.state.list == s.list
  {
    if s.list.active then Step(s, [])
    else
      var store := if texture == 0 || texture in s.store then s.store
                   else s.store[texture := Fresh(texture, target)];
      var slot := if texture == 0 then None else Some(texture);
      Step(s.(store := store,
              bound := s.bound[s.active := slot],
              rectArb := s.rectArb[s.active := target == TEXTURE_RECTANGLE_ARB]),
           [Gles.BindTexture(Gles.Mapped(target), texture)])
  }

  /** Binding a name again, whatever the target, finds the same record:
      identity and creation target persist. */
  lemma RebindKeepsRecord(s: State, t1: GLenum, t2: GLenum, texture: nat)
    requires Valid(s) && !s.list.active && texture != 0
    ensures var s1 := BindTexture(s, t1, texture).state;
            var s2 := BindTexture(s1, t2, texture).state;
            && s2.store == s1.store
            && s2.store[texture] == (if texture in s.store then s.store[texture] else Fresh(texture, t1))
            && Current(s2) == Current(s1)
  {
  }

  // ------------------------------------------------------------------
  // glDeleteTextures (src/gl/texture.c:336-359)

  /** The slots with every reference to `t` cleared. */
  function ClearSlots(bound: seq<Option<nat>>, t: nat): (r: seq<Option<nat>>)
    ensures |r| == |bound|
    ensures forall u :: 0 <= u < |r| ==> r[u] == if bound[u] == Some(t) then None else bound[u]
  {
    seq(|bound|, u requires 0 <= u < |bound| => if bound[u] == Some(t) then None else bound[u])
  }

  /** One name of the list: if stored, unbind it everywhere and drop it. */
  function DeleteOne(s: State, t: nat): (r: State)
    requires Valid(s)
    ensures Valid(r)
  {
    if t in s.store then s.(store := s.store - {t}, bound := ClearSlots(s.bound, t))
    else s
  }

  function DeleteAll(s: State, names: seq<nat>): (r: State)
    requires Valid(s)
    ensures Valid(r)
    // Exactly the listed names that were stored are gone; other records
    // are untouched.
    ensures forall n :: n in r.store <==> n in s.store && n !in names
    ensures forall n :: n in r.store ==> r.store[n] == s.store[n]
    // Exactly the slots that held a listed name are cleared.
    ensures |r.bound| == |s.bound|
    ensures forall u :: 0 <= u < |s.bound| ==>
              r.bound[u] == if s.bound[u].Some? && s.bound[u].value in names then None else s.bound[u]
    ensures r.(store := s.store, bound := s.bound) == s
    decreases |names|
  {
    if |names| == 0 then s
    else DeleteAll(DeleteOne(s, names[0]), names[1..])
  }

  /** The C loops: for each name, look it up, clear every slot that points
      at it, then remove it. */
  method DeleteAllLoop(s: State, names: seq<nat>) returns (r: State)
    requires Valid(s)
    ensures r == DeleteAll(s, names)
  {
    r := s;
    var i := 0;
    while i < |names|
      invariant i <= |names|
      invariant Valid(r)
      invariant DeleteAll(r, names[i..]) == DeleteAll(s, names)
    {
      var t := names[i];
      assert names[i..][1..] == names[i + 1..];
      if t in r.store {
        var bound := r.bound;
        var a := 0;
        while a < MAX_TEX
          invariant a <= MAX_TEX
          invariant |bound| == MAX_TEX
          invariant forall u :: 0 <= u < a ==> bound[u] == if r.bound[u] == Some(t) then None else r.bound[u]
          invariant forall u :: a <= u < MAX_TEX ==> bound[u] == r.bound[u]
        {
          if bound[a] == Some(t) {
            bound := bound[a := None];
          }
          a := a + 1;
        }
        assert bound == ClearSlots(r.bound, t);
        r := r.(store := r.store - {t}, bound := bound);
      }
      i := i + 1;
    }
  }

  function DeleteTextures(s: State, names: seq<nat>): (r: Step)
    requires Valid(s)
    ensures Valid(r.state)
    ensures Composing(s.list) ==> r == Step(s, [])
    ensures !Composing(s.list) ==>
      && r.calls == [Gles.DeleteTextures(names)]
      // No slot refers to a deleted name afterwards.
      && (forall u :: 0 <= u < |r.state.bound| && r.state.bound[u].Some? ==> r.state.bound[u].value !in names)
      && (forall n :: n in r.state.store <==> n in s.store && n !in names)
      // Exactly the deletion `DeleteAll` specifies: only the records named
      // and the slots that held them change.
      && r.state == DeleteAll(s, names)
  {
    if Composing(s.list) then Step(s, [])
    else Step(DeleteAll(s, names), [Gles.DeleteTextures(names)])
  }

  /** Delete, then bind the same name again: a new record with zero
      geometry, created with the new target. */
  lemma RebindAfterDeleteIsFresh(s: State, names: seq<nat>, texture: nat, target: GLenum)
    requires Valid(s) && !s.list.active && texture != 0 && texture in names
    ensures var s1 := DeleteTextures(s, names).state;
            var s2 := BindTexture(s1, target, texture).state;
            && Current(s2) == Some(Fresh(texture, target))
            && s2.store[texture].width == 0 && s2.store[texture].height == 0
  {
  }

  // ------------------------------------------------------------------
  // glActiveTexture / glClientActiveTexture (src/gl/texture.c:489-511)

  predicate UnitInRange(unit: GLenum)
  {
    TEXTURE0 <= unit < TEXTURE0 + MAX_TEX
  }

  function ActiveTexture(s: State, unit: GLenum): (r: Step)
    requires Valid(s)
    ensures Valid(r.state)
    // Only the server active index may change.
    ensures r.state.(active := s.active) == s
    ensures !Composing(s.list) && UnitInRange(unit) ==>
              TEXTURE0 + r.state.active == unit && r.calls == [Gles.ActiveTexture(unit)]
    ensures Composing(s.list) || !UnitInRange(unit) ==> r == Step(s, [])
  {
    if Composing(s.list) || !UnitInRange(unit) then Step(s, [])
    else Step(s.(active := unit - TEXTURE0), [Gles.ActiveTexture(unit)])
  }

  function ClientActiveTexture(s: State, unit: GLenum): (r: Step)
    requires Valid(s)
    ensures Valid(r.state)
    // Only the client active index may change.
    ensures r.state.(client := s.client) == s
    ensures !Composing(s.list) && UnitInRange(unit) ==>
              TEXTURE0 + r.state.client == unit && r.calls == [Gles.ClientActiveTexture(unit)]
    ensures Composing(s.list) || !UnitInRange(unit) ==> r == Step(s, [])
  {
    if Composing(s.list) || !UnitInRange(unit) then Step(s, [])
    else Step(s.(client := unit - TEXTURE0), [Gles.ClientActiveTexture(unit)])
  }

  /** The two axes are independent: selecting a client unit never changes
      what the server axis sees bound, and selecting a server unit never
      moves the client axis. */
  lemma UnitAxesIndependent(s: State, unit: GLenum)
    requires Valid(s)
    ensures Current(ClientActiveTexture(s, unit).state) == Current(s)
    ensures ActiveTexture(s, unit).state.client == s.client
    ensures ActiveTexture(s, unit).state.bound == s.bound
  {
  }

  /** Selecting unit k, then binding, writes slot k and no other. */
  lemma SelectThenBind(s: State, k: nat, target: GLenum, texture: nat)
    requires Valid(s) && !s.list.active && k < MAX_TEX
    ensures var s1 := ActiveTexture(s, TEXTURE0 + k).state;
            var s2 := BindTexture(s1, target, texture).state;
            && s2.bound[k] == (if texture == 0 then None else Some(texture))
            && (forall u :: 0 <= u < MAX_TEX && u != k ==> s2.bound[u] == s.bound[u])
  {
  }

  // ------------------------------------------------------------------
  // glPixelStorei (src/gl/texture.c:257-277)

  predicate Intercepted(pname: GLenum)
  {
    pname in {UNPACK_ROW_LENGTH, UNPACK_SKIP_PIXELS, UNPACK_SKIP_ROWS, UNPACK_LSB_FIRST}
  }

  function PixelStorei(s: State, pname: GLenum, param: int): (r: Step)
    requires Valid(s)
    ensures Valid(r.state)
    // Only the unpack parameters may change.
    ensures r.state.(unpack := s.unpack) == s
    ensures pname == UNPACK_ROW_LENGTH ==> r.state.unpack == s.unpack.(rowLength := param)
    ensures pname == UNPACK_SKIP_PIXELS ==> r.state.unpack == s.unpack.(skipPixels := param)
    ensures pname == UNPACK_SKIP_ROWS ==> r.state.unpack == s.unpack.(skipRows := param)
    ensures pname == UNPACK_LSB_FIRST ==> r.state.unpack == s.unpack.(lsbFirst := param)
    ensures Intercepted(pname) ==> r.calls == []
    // Anything else is passed through and leaves the state alone.
    ensures !Intercepted(pname) ==> r == Step(s, [Gles.PixelStorei(pname, param)])
  {
    var u := s.unpack;
    if pname == UNPACK_ROW_LENGTH then Step(s.(unpack := u.(rowLength := param)), [])
    else if pname == UNPACK_SKIP_PIXELS then Step(s.(unpack := u.(skipPixels := param)), [])
    else if pname == UNPACK_SKIP_ROWS then Step(s.(unpack := u.(skipRows := param)), [])
    else if pname == UNPACK_LSB_FIRST then Step(s.(unpack := u.(lsbFirst := param)), [])
    else Step(s, [Gles.PixelStorei(pname, param)])
  }

  /** Storing a parameter twice keeps only the second value. */
  lemma LastStoreWins(s: State, pname: GLenum, a: int, b: int)
    requires Valid(s) && Intercepted(pname)
    ensures PixelStorei(PixelStorei(s, pname, a).state, pname, b).state == PixelStorei(s, pname, b).state
  {
  }

  /** Zeroing row length and both skips switches row unpacking off for
      every width. */
  lemma ResetDisablesUnpack(s: State, width: nat)
    requires Valid(s)
    ensures var s1 := PixelStorei(s, UNPACK_ROW_LENGTH, 0).state;
            var s2 := PixelStorei(s1, UNPACK_SKIP_PIXELS, 0).state;
            var s3 := PixelStorei(s2, UNPACK_SKIP_ROWS, 0).state;
            !NeedsUnpack(s3.unpack, width)
  {
  }
}

=== FILE: tex_upload.dfy ===
/** The two upload entry points: `glTexImage2D` with its power-of-two
    emulation (src/gl/texture.c:94-187) and `glTexSubImage2D`
    (src/gl/texture.c:189-221). Both run the client buffer through the row
    unpacker and the format normaliser before calling the embedded API. */
module TexUpload {
  import opened GL
  import Gles
  import opened Npot
  import opened FormatNormalizer
  import opened RowUnpacker
  import opened TexState

  /** The client buffer holds what the unpack parameters say it holds
      whenever the shim reads it (base-level path: only with data). */
  predicate ImageReadable(cfg: UnpackConfig, width: nat, height: nat, data: Option<Pixels>, ps: nat)
  {
    data.Some? && NeedsUnpack(cfg, width) ==> Covers(|data.value|, cfg, width, height, ps)
  }

  /** Unpack (when needed), then normalise the pair. `ps` is what the
      external `pixel_sizeof(format, type)` returns. Both upload paths use
      the sub-image copy `Unpack` here; the base-level copy of
      `glTexImage2D` as written (src/gl/texture.c:104-117) differs from it
      for pixels of two bytes or more and is modelled separately as
      `RowUnpacker.UnpackBaseAsWritten`. */
  function Prepare(cfg: UnpackConfig, width: nat, height: nat, format: GLenum, pixelType: GLenum,
                   data: Option<Pixels>, ps: nat, convert: Converter): (r: Swizzled)
    requires ImageReadable(cfg, width, height, data, ps)
    ensures data.None? ==> r.pixels.None?
    ensures !NeedsConversion(format, pixelType) ==>
              && r.format == format && r.pixelType == Dealias(pixelType)
              && (data.Some? ==> r.pixels == Some(ApplyUnpack(data.value, cfg, width, height, ps)))
    ensures r.pixels.Some? || data.None? ==> NativeFormat(r.format) && NativeType(r.pixelType)
    // A pair that needs conversion: without data only the canonical pair
    // goes on; with data the converter sees the UNPACKED buffer, and on
    // failure the alias-renamed pair goes on with no pixels.
    ensures NeedsConversion(format, pixelType) && data.None? ==> r == Swizzled(RGBA, UNSIGNED_BYTE, None)
    ensures NeedsConversion(format, pixelType) && data.Some? ==>
              var c := convert(ApplyUnpack(data.value, cfg, width, height, ps), width, height, format, Dealias(pixelType));
              && (c.Some? ==> r == Swizzled(RGBA, UNSIGNED_BYTE, c))
              && (c.None? ==> r == Swizzled(format, Dealias(pixelType), None))
  {
    var unpacked := if data.None? then None else Some(ApplyUnpack(data.value, cfg, width, height, ps));
    SwizzleYieldsNativePair(width, height, format, pixelType, unpacked, convert);
    Swizzle(width, height, format, pixelType, unpacked, convert)
  }

  /** The embedded-API calls of the non-proxy branch: allocate at the
      power-of-two size and sub-upload the real image at the origin, or a
      single allocate-with-data when the size is already a power of two.
      The internal format passed on is the (normalised) format. */
  function NpotCalls(target: GLenum, level: int, width: nat, height: nat, img: Swizzled): (r: seq<Gles.Call>)
    ensures target == PROXY_TEXTURE_2D ==> r == []
    ensures target != PROXY_TEXTURE_2D && (width != NPot(width) || height != NPot(height)) ==>
              r == [Gles.TexImage2D(Gles.Raw(target), level, img.format, NPot(width), NPot(height), 0,
                                    img.format, img.pixelType, None),
                    Gles.TexSubImage2D(Gles.Raw(target), level, 0, 0, width, height,
                                       img.format, img.pixelType, img.pixels)]
    ensures target != PROXY_TEXTURE_2D && width == NPot(width) && height == NPot(height) ==>
              r == [Gles.TexImage2D(Gles.Raw(target), level, img.format, width, height, 0,
                                    img.format, img.pixelType, img.pixels)]
  {
    if target == PROXY_TEXTURE_2D then []
    else
      var nwidth := NPot(width);
      var nheight := NPot(height);
      if height != nheight || width != nwidth then
        [Gles.TexImage2D(Gles.Raw(target), level, img.format, nwidth, nheight, 0, img.format, img.pixelType, None),
         Gles.TexSubImage2D(Gles.Raw(target), level, 0, 0, width, height, img.format, img.pixelType, img.pixels)]
      else
        [Gles.TexImage2D(Gles.Raw(target), level, img.format, width, height, 0, img.format, img.pixelType, img.pixels)]
  }

  /** What the embedded API is asked to do is always legal for it and
      complete: every allocation is power-of-two sized (or empty), and the
      image arrives in exactly one call, the last, at the origin with its
      true size, inside the allocated storage. */
  lemma NpotCallsArePow2AndComplete(target: GLenum, level: int, width: nat, height: nat, img: Swizzled)
    requires target != PROXY_TEXTURE_2D
    ensures var r := NpotCalls(target, level, width, height, img);
            && 1 <= |r| <= 2
            && (forall i :: 0 <= i < |r| && r[i].TexImage2D? ==>
                  (r[i].width == 0 || IsPow2(r[i].width)) && (r[i].height == 0 || IsPow2(r[i].height))
                  && width <= r[i].width && height <= r[i].height)
            && (forall i :: 0 <= i < |r| - 1 ==> r[i].pixels.None?)
            && r[|r| - 1].pixels == img.pixels
            && r[|r| - 1].width == width && r[|r| - 1].height == height
            && (r[|r| - 1].TexSubImage2D? ==> r[|r| - 1].xoffset == 0 && r[|r| - 1].yoffset == 0)
  {
    var r := NpotCalls(target, level, width, height, img);
    if width == NPot(width) && height == NPot(height) {
      assert r[0].width == NPot(width) && r[0].height == NPot(height);
    }
  }

  /** Record the uploaded size on the bound texture (base level only). */
  function TrackGeometry(s: State, target: GLenum, level: int, width: nat, height: nat): (r: State)
    requires Valid(s)
    ensures Valid(r)
  {
    if target != PROXY_TEXTURE_2D && level == 0 && s.bound[s.active].Some? then
      var n := s.bound[s.active].value;
      s.(store := s.store[n := s.store[n].(width := width, height := height,
                                           nwidth := NPot(width), nheight := NPot(height))])
    else s
  }

  /** `glTexImage2D`. `internalFormat` and `border` are accepted and
      ignored, as in the source. */
  function TexImage2D(s: State, target: GLenum, level: int, internalFormat: GLenum,
                      width: nat, height: nat, border: int, format: GLenum, pixelType: GLenum,
                      data: Option<Pixels>, ps: nat, convert: Converter): (r: Step)
    requires Valid(s)
    requires ImageReadable(s.unpack, width, height, data, ps)
    ensures Valid(r.state)
    ensures r.calls == NpotCalls(target, level, width, height,
                                 Prepare(s.unpack, width, height, format, pixelType, data, ps, convert))
    // Nothing but the bound record's geometry may change.
    ensures r.state.(store := s.store) == s
    ensures r.state.store.Keys == s.store.Keys
    ensures target == PROXY_TEXTURE_2D || level != 0 || s.bound[s.active].None? ==> r.state == s
    ensures target != PROXY_TEXTURE_2D && level == 0 && s.bound[s.active].Some? ==>
              var n := s.bound[s.active].value;
              && Current(r.state) == Some(s.store[n].(width := width, height := height,
                                                       nwidth := NPot(width), nheight := NPot(height)))
              && (forall m :: m in s.store && m != n ==> r.state.store[m] == s.store[m])
  {
    var img := Prepare(s.unpack, width, height, format, pixelType, data, ps, convert);
    Step(TrackGeometry(s, target, level, width, height), NpotCalls(target, level, width, height, img))
  }

  /** The ignored arguments really are ignored. */
  lemma TexImage2DIgnoresInternalFormatAndBorder(s: State, target: GLenum, level: int,
                                                 if1: GLenum, if2: GLenum, b1: int, b2: int,
                                                 width: nat, height: nat, format: GLenum, pixelType: GLenum,
                                                 data: Option<Pixels>, ps: nat, convert: Converter)
    requires Valid(s) && ImageReadable(s.unpack, width, height, data, ps)
    ensures TexImage2D(s, target, level, if1, width, height, b1, format, pixelType, data, ps, convert)
            == TexImage2D(s, target, level, if2, width, height, b2, format, pixelType, data, ps, convert)
  {
  }

  /** For a pair the embedded API takes, the pixels of a base-level upload
      are exactly the requested sub-rectangle of the client buffer, packed. */
  lemma TexImage2DUploadsRequestedRectangle(s: State, target: GLenum, level: int, internalFormat: GLenum,
                                            width: nat, height: nat, border: int, format: GLenum, pixelType: GLenum,
                                            data: Pixels, ps: nat, convert: Converter)
    requires Valid(s) && target != PROXY_TEXTURE_2D
    requires !NeedsConversion(format, pixelType)
    requires Covers(|data|, s.unpack, width, height, ps)
    ensures var r := TexImage2D(s, target, level, internalFormat, width, height, border,
                                format, pixelType, Some(data), ps, convert).calls;
            && |r| > 0 && r[|r| - 1].pixels.Some?
            && height * (width * ps) <= |r[|r| - 1].pixels.value|
            && r[|r| - 1].pixels.value[.. height * (width * ps)] == Unpack(data, s.unpack, width, height, ps)
  {
    var img := Prepare(s.unpack, width, height, format, pixelType, Some(data), ps, convert);
    NpotCallsArePow2AndComplete(target, level, width, height, img);
    UnpackDecisionIsSound(data, s.unpack, width, height, ps);
  }

  lemma IsPow2Of128()
    ensures IsPow2(128)
  {
    assert IsPow2(1) && IsPow2(2) && IsPow2(4) && IsPow2(8);
    assert IsPow2(16) && IsPow2(32) && IsPow2(64);
  }

  /** A 100x70 base-level image: tracked as 100x70 in 128x128 storage,
      uploaded as an empty 128x128 allocation plus a 100x70 sub-upload. */
  lemma Upload100x70(s: State, data: Pixels, ps: nat, convert: Converter)
    requires Valid(s) && s.bound[s.active].Some? && !NeedsUnpack(s.unpack, 100)
    ensures var r := TexImage2D(s, TEXTURE_2D, 0, RGBA, 100, 70, 0, RGBA, UNSIGNED_BYTE, Some(data), ps, convert);
            && Current(r.state).Some?
            && Current(r.state).value.width == 100 && Current(r.state).value.height == 70
            && Current(r.state).value.nwidth == 128 && Current(r.state).value.nheight == 128
            && r.calls == [Gles.TexImage2D(Gles.Raw(TEXTURE_2D), 0, RGBA, 128, 128, 0, RGBA, UNSIGNED_BYTE, None),
                           Gles.TexSubImage2D(Gles.Raw(TEXTURE_2D), 0, 0, 0, 100, 70, RGBA, UNSIGNED_BYTE, Some(data))]
  {
    IsPow2Of128();
    NPotCharacterization(100, 128);
    NPotCharacterization(70, 128);
    CanonicalPassesThrough(100, 70, Some(data), convert);
  }

  /** A 128x128 image goes up in a single allocate-with-data call. */
  lemma Upload128x128(s: State, data: Pixels, ps: nat, convert: Converter)
    requires Valid(s) && !NeedsUnpack(s.unpack, 128)
    ensures TexImage2D(s, TEXTURE_2D, 0, RGBA, 128, 128, 0, RGBA, UNSIGNED_BYTE, Some(data), ps, convert).calls
            == [Gles.TexImage2D(Gles.Raw(TEXTURE_2D), 0, RGBA, 128, 128, 0, RGBA, UNSIGNED_BYTE, Some(data))]
  {
    IsPow2Of128();
    NPotFixesPow2(128);
    CanonicalPassesThrough(128, 128, Some(data), convert);
  }

  /** `glTexSubImage2D`: one sub-upload with the mapped target; the tracked
      state is never touched, so sub-uploads never change the recorded
      geometry. Unpacking runs whether or not `data` is NULL, so the source
      demands a buffer whenever unpacking is on. */
  function TexSubImage2D(s: State, target: GLenum, level: int, xoffset: int, yoffset: int,
                         width: nat, height: nat, format: GLenum, pixelType: GLenum,
                         data: Option<Pixels>, ps: nat, convert: Converter): (r: Step)
    requires Valid(s)
    requires NeedsUnpack(s.unpack, width) ==> data.Some? && Covers(|data.value|, s.unpack, width, height, ps)
    ensures r.state == s
    ensures |r.calls| == 1 && r.calls[0].TexSubImage2D?
    ensures r.calls[0].target == Gles.Mapped(target) && r.calls[0].level == level
    ensures !NeedsConversion(format, pixelType) ==>
              r.calls[0].format == format && r.calls[0].pixelType == Dealias(pixelType)
    ensures r.calls[0].xoffset == xoffset && r.calls[0].yoffset == yoffset
    ensures r.calls[0].width == width && r.calls[0].height == height
    ensures r.calls[0].pixels.Some? || data.None? ==>
              NativeFormat(r.calls[0].format) && NativeType(r.calls[0].pixelType)
    ensures NeedsConversion(format, pixelType) && data.None? ==>
              r.calls[0].format == RGBA && r.calls[0].pixelType == UNSIGNED_BYTE && r.calls[0].pixels.None?
    ensures NeedsConversion(format, pixelType) && data.Some? ==>
              var c := convert(ApplyUnpack(data.value, s.unpack, width, height, ps), width, height, format, Dealias(pixelType));
              && (c.Some? ==> r.calls[0].format == RGBA && r.calls[0].pixelType == UNSIGNED_BYTE && r.calls[0].pixels == c)
              && (c.None? ==> r.calls[0].format == format && r.calls[0].pixelType == Dealias(pixelType)
                              && r.calls[0].pixels.None?)
  {
    var img := Prepare(s.unpack, width, height, format, pixelType, data, ps, convert);
    Step(s, [Gles.TexSubImage2D(Gles.Mapped(target), level, xoffset, yoffset, width, height,
                                img.format, img.pixelType, img.pixels)])
  }

  /** For a pair the embedded API takes, a sub-upload sends exactly the
      requested sub-rectangle of the client buffer, packed. */
  lemma TexSubImage2DUploadsRequestedRectangle(s: State, target: GLenum, level: int, xoffset: int, yoffset: int,
                                               width: nat, height: nat, format: GLenum, pixelType: GLenum,
                                               data: Pixels, ps: nat, convert: Converter)
    requires Valid(s)
    requires !NeedsConversion(format, pixelType)
    requires Covers(|data|, s.unpack, width, height, ps)
    ensures var c := TexSubImage2D(s, target, level, xoffset, yoffset, width, height,
                                   format, pixelType, Some(data), ps, convert).calls[0];
            && c.pixels.Some?
            && height * (width * ps) <= |c.pixels.value|
            && c.pixels.value[.. height * (width * ps)] == Unpack(data, s.unpack, width, height, ps)
  {
    UnpackDecisionIsSound(data, s.unpack, width, height, ps);
  }
}
